=== FILE: README.md ===
# Filter-ID subscriber: a verified model

This project models the filter-ID subscriber of an Ethereum JSON-RPC provider (`FilterIdSubscriber` and its two specializations, `FilterIdEventSubscriber` and `FilterIdPendingSubscriber`). Some nodes cannot push events. Instead, a client installs a filter (`eth_newFilter`, or `eth_newPendingTransactionFilter` for pending transactions), asks for changes on every new block (`eth_getFilterChanges`) and removes the filter when done (`eth_uninstallFilter`). The subscriber hides this protocol behind `start`, `stop`, `pause` and `resume`, and emits what each poll finds.

The project has three parts.

- `filterid_model.dfy` (module `FilterIdModel`) holds the state machine as values. `State` holds the four private fields: the cached install request, `running`, `hault` and the recorded chain id. `Kind = Event(filter) | Pending` selects the specialization and so its hooks. A poll and each public operation are atomic steps (`PollStep`, `TeardownStep`, `StartStep`, `StopStep`, `PauseStep`, `Step`). A step reads the outcome of every Provider call it awaits from `PollInputs`. It returns the new state and the Provider calls it made (`Call`), in order. `Run` chains the steps of a sequence of operations.
- `filterid_subscriber.dfy` (module `FilterIdSubscribers`) holds the class `FilterIdSubscriber`. Its methods update the fields in place and append the calls they make to a ghost `trace`. Each method is proved to do exactly what its step function says. `EmitResults` is the `for` loop of `_emitResults`.
- `filterid_properties.dfy` (module `FilterIdProperties`) proves the subscriber's rules over one poll and over any sequence of operations. The rules covered are single-flight installation, one uninstall per settled install, a permanent halt flag, a fixed recorded chain id, which exits reschedule, and idempotent `start` and `stop`.

In the places below, the code does not do what one might expect of this module. The model follows the code:

- A poll checks the install, the network and the chain id before it checks the halt flag. So after `stop` a poll can still reschedule: when the install was rejected, when `getNetwork` fails, when the chain id changed, or when the pending subscriber finds no filter id. What `stop` does suppress for good is every `eth_getFilterChanges` issued after the stop, and every emission of a poll that starts after it (`HaltIsPermanent`, `StopSilencesForever`).
- `pause` does not clear `running`, and `resume` only calls `start`, which returns at once while `running` is set. So a `resume` after pausing a running subscriber makes no call, and after `pause(true)` the `resume` does not install the dropped filter again (`ResumeAfterPauseDoesNothing`). `pause` sets no halt flag either. So if a poll still runs after `pause(true)`, it installs a new filter, queries it, emits and reschedules as if no pause had happened (`PollAfterPauseReinstalls`).
- A rejected install request stays cached. Every later poll waits on the same rejection, logs it and reschedules without installing again, until a teardown (`stop` or `pause(true)`) clears the cache (`PollStep`, `SingleFlight`). So one failed install stops the subscription from working, while the other failures of a poll recover on a later block.
- A poll that runs after a stop finds the cache empty and installs a new filter. It can run because a cycle that was in flight during the stop registered the poller again. That cycle may have failed, or its query may have succeeded; both paths reach the reschedule. `running` is then false, so a further `stop` returns at once and sends no uninstall for the new filter (`PollAfterStopKeepsNewInstall`). Only `pause(true)`, or a `start` followed by a `stop`, uninstalls it (`LeftoverInstallDroppedLater`).
- Teardown of an install that settled with no id still sends `eth_uninstallFilter` with a null id. Teardown of a rejected install sends nothing, because the `.then` handler never runs.
- The event subscriber's emissions are wrapped with the Provider's own network, not with the chain id the subscriber recorded.

## Model

| member | source | states |
|---|---|---|
| `FilterIdModel.Emissions` | lib.esm/providers/subscriber-filterid.js:118-137 | one emission per result, in the results' order; the event subscriber emits the wrapped log keyed by its filter, the pending subscriber emits the raw value on "pending" |
| `FilterIdModel.PollStep` | lib.esm/providers/subscriber-filterid.js:39-66 | the install request the poll waits on stays cached; `running` and `hault` are unchanged; the first chain id seen with a filter id is recorded, every other poll leaves the chain id as it was, and a recorded id is never overwritten; a successful poll makes the install (only if nothing was cached), queries with the cached id, emits the results and reschedules; a missing id in the event subscriber hands off without query or reschedule; a halted poll that passes the checks makes no further call |
| `FilterIdModel.TeardownStep` | lib.esm/providers/subscriber-filterid.js:67-75 | the cache is cleared and nothing else changes; exactly one uninstall, with the settled id, when the cached request settled with a value; no call otherwise |
| `FilterIdModel.StartStep` | lib.esm/providers/subscriber-filterid.js:76-82 | no change and no call when already running; otherwise sets `running` and runs exactly one poll at once; never touches `hault` |
| `FilterIdModel.StopStep` | lib.esm/providers/subscriber-filterid.js:83-91 | no change and no call when not running; otherwise clears `running`, sets `hault`, tears down the cache and unregisters the block listener, keeping the recorded chain id |
| `FilterIdModel.PauseStep` | lib.esm/providers/subscriber-filterid.js:92-97 | `pause(true)` tears down the cache, `pause(false)` keeps it; both unregister the block listener and change neither `running`, `hault` nor the chain id |
| `FilterIdModel.Step` | lib.esm/providers/subscriber-filterid.js:76-98 | only a stop of a running subscriber sets `hault` and no operation clears it; `running` becomes false on stop, true on start and resume, and is kept otherwise; a recorded chain id is kept |
| `FilterIdSubscribers.FilterIdSubscriber.constructor` | lib.esm/providers/subscriber-filterid.js:22-29 | nothing cached, not running, not halted, no chain id, no call made |
| `FilterIdSubscribers.FilterIdSubscriber.EmitResults` | lib.esm/providers/subscriber-filterid.js:119-121 | the loop appends exactly the emissions of the results, in order |
| `FilterIdSubscribers.FilterIdSubscriber.Poll` | lib.esm/providers/subscriber-filterid.js:39-66 | the fields and the trace change exactly as one poll step says |
| `FilterIdSubscribers.FilterIdSubscriber.Teardown` | lib.esm/providers/subscriber-filterid.js:67-75 | the fields and the trace change exactly as teardown says |
| `FilterIdSubscribers.FilterIdSubscriber.Start` | lib.esm/providers/subscriber-filterid.js:76-82 | the fields and the trace change exactly as the start step says |
| `FilterIdSubscribers.FilterIdSubscriber.Stop` | lib.esm/providers/subscriber-filterid.js:83-91 | the fields and the trace change exactly as the stop step says |
| `FilterIdSubscribers.FilterIdSubscriber.Pause` | lib.esm/providers/subscriber-filterid.js:92-97 | the fields and the trace change exactly as the pause step says |
| `FilterIdSubscribers.FilterIdSubscriber.Resume` | lib.esm/providers/subscriber-filterid.js:98 | behaves exactly as the start step |
| `FilterIdProperties.EmissionsCount` | lib.esm/providers/subscriber-filterid.js:118-137 | the emissions hold one emit per result and no call of any other kind |
| `FilterIdProperties.PollCounts` | lib.esm/providers/subscriber-filterid.js:39-66 | per kind of call, how many one poll makes: one install exactly when nothing is cached; one query exactly when it passes every check and is not halted; one emit per result; one hand-off exactly on a missing id in the event subscriber; one reschedule except on the two early returns; no uninstall and no unregistration |
| `FilterIdProperties.QueriedPollCount` | lib.esm/providers/subscriber-filterid.js:59-65 | a poll that queries makes one query, emits once per result when the query succeeds, and reschedules in either case |
| `FilterIdProperties.HandOffPollCount` | lib.esm/providers/subscriber-filterid.js:45-48 | a hand-off poll makes the hand-off and nothing after it |
| `FilterIdProperties.FailedPollCount` | lib.esm/providers/subscriber-filterid.js:62-65 | a poll that fails before the halt check still reschedules, and makes nothing else beyond the install and the logged error |
| `FilterIdProperties.StepBalancesUninstalls` | lib.esm/providers/subscriber-filterid.js:67-75 | one operation sends an uninstall only for an install request that settled with a value and was held in the cache |
| `FilterIdProperties.UninstallOncePerInstall` | lib.esm/providers/subscriber-filterid.js:67-75 | over any sequence of operations, uninstalls sent plus the request still held equal the settled installs plus the request held at the start |
| `FilterIdProperties.StepSingleFlight` | lib.esm/providers/subscriber-filterid.js:41-44 | an operation that cannot drop the cache either keeps it and installs nothing, or finds it empty, installs once and fills it |
| `FilterIdProperties.SingleFlight` | lib.esm/providers/subscriber-filterid.js:41-44 | with no teardown in between, at most one install; none and an unchanged cache when a request was already cached |
| `FilterIdProperties.StepWhileHalted` | lib.esm/providers/subscriber-filterid.js:56-58 | an operation of a halted subscriber keeps it halted and neither queries nor emits |
| `FilterIdProperties.HaltIsPermanent` | lib.esm/providers/subscriber-filterid.js:56-58 | the halt flag is never cleared, and a halted subscriber never again queries or emits, whatever operations follow |
| `FilterIdProperties.StopSilencesForever` | lib.esm/providers/subscriber-filterid.js:83-91 | after a stop of a running subscriber, no later operation, a new start included, queries or emits |
| `FilterIdProperties.NetworkNeverOverwritten` | lib.esm/providers/subscriber-filterid.js:49-52 | once a chain id is recorded, no sequence of operations changes it |
| `FilterIdProperties.ChainChangeReschedules` | lib.esm/providers/subscriber-filterid.js:49-65 | a poll that sees another chain id logs the change and reschedules without query or emission, and keeps the recorded id |
| `FilterIdProperties.NoQueryWithoutFilterId` | lib.esm/providers/subscriber-filterid.js:44-48 | once the cached install settled with no id, no operation that keeps the cache queries or emits |
| `FilterIdProperties.StartIsIdempotent` | lib.esm/providers/subscriber-filterid.js:76-82 | a second start or a resume right after a start changes nothing and makes no call |
| `FilterIdProperties.StopIsIdempotent` | lib.esm/providers/subscriber-filterid.js:83-91 | a second stop changes nothing and makes no call |
| `FilterIdProperties.PollAfterStopKeepsNewInstall` | lib.esm/providers/subscriber-filterid.js:39-91 | after a stop of a running subscriber, a poll installs exactly one new filter, and a second stop sends no uninstall for it: the only uninstall is the one for the request held before the first stop, and the new request stays cached with `running` false |
| `FilterIdProperties.LeftoverInstallDroppedLater` | lib.esm/providers/subscriber-filterid.js:67-97 | the filter installed after a stop is uninstalled by a later `pause(true)`, and by a `start` (which installs nothing new) followed by a `stop` |
| `FilterIdProperties.PollAfterPauseReinstalls` | lib.esm/providers/subscriber-filterid.js:39-97 | a poll after `pause(true)` of a subscriber that is not halted installs a new filter, queries it with the new id, emits every result and reschedules; the pause leaves `running` as it was and sets no halt flag |
| `FilterIdProperties.ResumeAfterPauseDoesNothing` | lib.esm/providers/subscriber-filterid.js:92-98 | after pausing a running subscriber, resume makes no call and changes nothing |

## Left out

- Interleaving at the `await` points: each poll is one atomic step over given outcomes. A cycle that is in flight while `stop` runs is not represented. In the code such a cycle keeps waiting on the install request it read before the teardown, and it never writes the cache again. If its `eth_getFilterChanges` was already sent, it still emits the results when they arrive, because the halt flag is not checked again, and it then registers the poller again. A poll after a stop in the model is always a fresh one, which reads the emptied cache and installs. The same holds for `pause`. A cycle in flight during `pause` registers the poller again, and `pause` sets no halt flag. So polling starts again with a new install and keeps querying and emitting. The model has this only as a `Block` after the `Pause` (`PollAfterPauseReinstalls`).
- The uninstall that teardown sends once the install settles is recorded when the teardown runs.
- Unhandled rejections in teardown: the `.then` on a rejected install request has no rejection handler, so the promise it returns rejects unhandled, and the `eth_uninstallFilter` send is not returned, so its own rejection is unhandled too. The trace records neither.
- The Provider: its RPC transport, `getNetwork` and its event registry are inputs (`PollInputs`) and trace entries (`Call`). Whether a poller is registered is not tracked, so a block notification (`Op.Block`) may run a poll at any time. The lemmas hold for every such schedule.
- `_wrapLog` is opaque (`WrappedLog(raw)`). The Provider network it uses is not modelled, and a throw from it or from `emit` in the middle of `_emitResults` is not modelled.
- The fallback `PollingEventSubscriber` is not part of this model. The hand-off is the trace entry `RecoverSubscriber(filter)`.
- The JSON deep copy of the filter: the filter is represented by its JSON text, which the copy leaves unchanged.
- Logging: a caught error becomes a `Logged(error)` entry; its message text is not modelled.
- The base class's throwing `_subscribe` and `_emitResults` can only run on an instance of the abstract base class itself. The model has only the two specializations. Of the base hooks, only the `_recover` that the pending subscriber inherits is modelled (`NoRecoverHook`).
- The `blockNumber` argument of the poller is unused by the poll and is not modelled.

=== FILE: filterid_model.dfy ===
/** The state machine behind a filter-ID subscriber, written as values.
    It installs a filter with `eth_newFilter` or `eth_newPendingTransactionFilter`,
    polls it with `eth_getFilterChanges` and removes it with `eth_uninstallFilter`.
    Each public operation and each poll is one atomic step. The step reads the
    outcome of every Provider call it awaits from its inputs, and returns the new
    state together with the Provider calls it made, in order. */
module FilterIdModel {

  datatype Option<+T> = None | Some(value: T)

  /** The opaque handle the node returns for an installed filter. */
  type FilterId = string

  /** The log-filter criteria. The subscriber keeps a JSON deep copy of them, so
      they are represented by that JSON text. */
  type Filter = string

  /** One entry of an `eth_getFilterChanges` reply: a log object or a transaction hash. */
  type RawChange = string

  type ChainId = int

  /** How an awaited Provider call settled: with a value, or by rejecting. */
  datatype Reply<+T> = Ok(value: T) | Rejected

  /** The settled install request: a filter id, or no id (null) when the node gives none. */
  type InstallReply = Reply<Option<FilterId>>

  /** The two specializations differ only in their hooks. `Event` is the log-event
      subscriber with its filter. `Pending` is the pending-transaction subscriber. */
  datatype Kind = Event(filter: Filter) | Pending

  /** Where results are emitted: keyed by the filter itself, or by a named channel. */
  datatype Channel = FilterChannel(filter: Filter) | Named(name: string)

  /** A log passed through the Provider's log wrapper, or a raw value. */
  datatype Payload = WrappedLog(raw: RawChange) | RawValue(raw: RawChange)

  /** Errors that a poll catches and logs. */
  datatype PollError =
    | InstallRejected     // the install request rejected
    | NoRecoverHook       // the pending subscriber has no recovery hook, so the base hook throws
    | NetworkUnavailable  // getNetwork rejected
    | ChainChanged        // the chain id differs from the recorded one
    | ChangesRejected     // eth_getFilterChanges rejected

  /** One Provider interaction. */
  datatype Call =
    | Install(kind: Kind, reply: InstallReply)  // eth_newFilter [filter] or eth_newPendingTransactionFilter [], with how it settled
    | GetChanges(id: FilterId)                  // eth_getFilterChanges [id]
    | Uninstall(resolved: Option<FilterId>)     // eth_uninstallFilter [id]; the id is null when the install gave none
    | RecoverSubscriber(filter: Filter)         // hand-off to a new polling event subscriber on the same filter
    | Emit(channel: Channel, payload: Payload)  // provider.emit
    | OnceBlock                                 // provider.once("block", poller)
    | OffBlock                                  // provider.off("block", poller)
    | Logged(error: PollError)                  // an error caught by the poll and logged

  /** The subscriber's private fields. The cached install request is represented by
      how it settles. */
  datatype State = State(cache: Option<InstallReply>, running: bool, hault: bool, network: Option<ChainId>)

  /** The state a subscriber is constructed in. */
  const INITIAL: State := State(None, false, false, None)

  /** The outcomes of the calls one poll awaits: the install (used only when nothing
      is cached), getNetwork's chain id, and eth_getFilterChanges. */
  datatype PollInputs = PollInputs(install: InstallReply, chain: Reply<ChainId>, changes: Reply<seq<RawChange>>)

  datatype StepResult = StepResult(next: State, calls: seq<Call>)

  /** What drives the subscriber: its four public operations and the block
      notification that runs the once-registered poller. */
  datatype Op = Start(inp: PollInputs) | Stop | Pause(drop: bool) | Resume(inp: PollInputs) | Block(inp: PollInputs)

  /** The install request a poll waits on: the cached one, or the one it makes now. */
  function InstallInEffect(s: State, inp: PollInputs): InstallReply {
    if s.cache.Some? then s.cache.value else inp.install
  }

  /** The install call a poll makes: one exactly when nothing is cached. */
  function InstallCalls(kind: Kind, s: State, inp: PollInputs): seq<Call> {
    if s.cache.None? then [Install(kind, inp.install)] else []
  }

  /** A poll gets past the install, the network fetch and the chain-id check, and
      reaches the halt check. */
  predicate ReachesHaltCheck(s: State, inp: PollInputs) {
    var reply := InstallInEffect(s, inp);
    && reply.Ok? && reply.value.Some?
    && inp.chain.Ok?
    && (s.network.None? || s.network.value == inp.chain.value)
  }

  /** A poll calls eth_getFilterChanges. */
  predicate Queries(s: State, inp: PollInputs) {
    ReachesHaltCheck(s, inp) && !s.hault
  }

  /** A poll finds no filter id and hands the subscription over to a polling
      subscriber. Only the event specialization has a recovery hook. */
  predicate HandsOff(kind: Kind, s: State, inp: PollInputs) {
    kind.Event? && InstallInEffect(s, inp) == Ok(None)
  }

  /** A poll ends by registering the poller for the next block. The two early
      returns do not; a caught error does. */
  predicate Reschedules(kind: Kind, s: State, inp: PollInputs) {
    !HandsOff(kind, s, inp) && !(ReachesHaltCheck(s, inp) && s.hault)
  }

  /** The emission `_emitResults` makes for one result. */
  function Emission(kind: Kind, raw: RawChange): Call {
    match kind
    case Event(f) => Emit(FilterChannel(f), WrappedLog(raw))
    case Pending => Emit(Named("pending"), RawValue(raw))
  }

  /** The emissions of `_emitResults`: one per result, in the results' order. */
  function Emissions(kind: Kind, results: seq<RawChange>): (r: seq<Call>)
    ensures |r| == |results|
    ensures forall i :: 0 <= i < |results| ==> r[i] == Emission(kind, results[i])
  {
    if results == [] then []
    else Emissions(kind, results[..|results| - 1]) + [Emission(kind, results[|results| - 1])]
  }

  /** One poll, with the outcomes of its awaited calls given. */
  function PollStep(kind: Kind, s: State, inp: PollInputs): (r: StepResult)
    // single flight: the install request a poll waits on stays cached
    ensures r.next.cache == Some(InstallInEffect(s, inp))
    ensures r.next.running == s.running && r.next.hault == s.hault
    // the first chain id seen with a filter id is recorded, and never overwritten
    ensures r.next.network == if s.network.None? && ReachesHaltCheck(s, inp) then Some(inp.chain.value) else s.network
    // a successful poll: query with the cached id, one emission per result, then reschedule
    ensures Queries(s, inp) && inp.changes.Ok? ==>
      r.calls == InstallCalls(kind, s, inp) + [GetChanges(InstallInEffect(s, inp).value.value)]
                 + Emissions(kind, inp.changes.value) + [OnceBlock]
    // no filter id in the event specialization: hand off, no query, no reschedule
    ensures HandsOff(kind, s, inp) ==> r.calls == InstallCalls(kind, s, inp) + [RecoverSubscriber(kind.filter)]
    // halted after the checks: return without query or reschedule
    ensures ReachesHaltCheck(s, inp) && s.hault ==> r.calls == InstallCalls(kind, s, inp)
  {
    var pre := InstallCalls(kind, s, inp);
    var reply := InstallInEffect(s, inp);
    var s1 := s.(cache := Some(reply));
    if reply.Rejected? then
      StepResult(s1, pre + [Logged(InstallRejected), OnceBlock])
    else if reply.value.None? then
      match kind
      case Event(f) => StepResult(s1, pre + [RecoverSubscriber(f)])
      case Pending => StepResult(s1, pre + [Logged(NoRecoverHook), OnceBlock])
    else if inp.chain.Rejected? then
      StepResult(s1, pre + [Logged(NetworkUnavailable), OnceBlock])
    else
      var s2 := if s.network.None? then s1.(network := Some(inp.chain.value)) else s1;
      if s2.network.value != inp.chain.value then
        StepResult(s2, pre + [Logged(ChainChanged), OnceBlock])
      else if s.hault then
        StepResult(s2, pre)
      else
        var queried := pre + [GetChanges(reply.value.value)];
        match inp.changes
        case Rejected => StepResult(s2, queried + [Logged(ChangesRejected), OnceBlock])
        case Ok(results) => StepResult(s2, queried + Emissions(kind, results) + [OnceBlock])
  }

  /** Teardown drops the cached install request. Once that request settles with a
      value, one uninstall is sent with that value. */
  function TeardownStep(s: State): (r: StepResult)
    ensures r.next.cache.None?
    ensures r.next.running == s.running && r.next.hault == s.hault && r.next.network == s.network
    ensures s.cache.Some? && s.cache.value.Ok? ==> r.calls == [Uninstall(s.cache.value.value)]
    ensures !(s.cache.Some? && s.cache.value.Ok?) ==> r.calls == []
  {
    match s.cache
    case None => StepResult(s, [])
    case Some(Rejected) => StepResult(s.(cache := None), [])
    case Some(Ok(id)) => StepResult(s.(cache := None), [Uninstall(id)])
  }

  /** `start`, and `resume`, which only calls it. */
  function StartStep(kind: Kind, s: State, inp: PollInputs): (r: StepResult)
    ensures s.running ==> r == StepResult(s, [])
    ensures !s.running ==> r == PollStep(kind, s.(running := true), inp)
    ensures r.next.running && r.next.hault == s.hault
  {
    if s.running then StepResult(s, [])
    else PollStep(kind, s.(running := true), inp)
  }

  function StopStep(s: State): (r: StepResult)
    ensures !s.running ==> r == StepResult(s, [])
    ensures s.running ==> && !r.next.running && r.next.hault
                          && r.next.cache.None? && r.next.network == s.network
                          && r.calls == TeardownStep(s).calls + [OffBlock]
  {
    if !s.running then StepResult(s, [])
    else
      var t := TeardownStep(s.(running := false, hault := true));
      StepResult(t.next, t.calls + [OffBlock])
  }

  function PauseStep(s: State, drop: bool): (r: StepResult)
    ensures r.next.running == s.running && r.next.hault == s.hault && r.next.network == s.network
    ensures r.next.cache == if drop then None else s.cache
    ensures r.calls == (if drop then TeardownStep(s).calls else []) + [OffBlock]
  {
    var t := if drop then TeardownStep(s) else StepResult(s, []);
    StepResult(t.next, t.calls + [OffBlock])
  }

  function Step(kind: Kind, s: State, op: Op): (r: StepResult)
    // only a stop of a running subscriber sets the halt flag, and nothing clears it
    ensures r.next.hault == (s.hault || (op.Stop? && s.running))
    ensures r.next.running == if op.Stop? then false else if op.Start? || op.Resume? then true else s.running
    ensures s.network.Some? ==> r.next.network == s.network
  {
    match op
    case Start(inp) => StartStep(kind, s, inp)
    case Resume(inp) => StartStep(kind, s, inp)
    case Stop => StopStep(s)
    case Pause(drop) => PauseStep(s, drop)
    case Block(inp) => PollStep(kind, s, inp)
  }

  /** The steps of `ops`, one after the other. */
  function Run(kind: Kind, s: State, ops: seq<Op>): StepResult
    decreases |ops|
  {
    if ops == [] then StepResult(s, [])
    else
      var first := Step(kind, s, ops[0]);
      var rest := Run(kind, first.next, ops[1..]);
      StepResult(rest.next, first.calls + rest.calls)
  }

  /** Kinds of call a trace is counted by. */
  datatype Tag = InstallTag | SettledInstallTag | GetChangesTag | UninstallTag | RecoverTag | EmitTag | OnceBlockTag | OffBlockTag

  predicate Tagged(c: Call, t: Tag) {
    match t
    case InstallTag => c.Install?
    case SettledInstallTag => c.Install? && c.reply.Ok?
    case GetChangesTag => c.GetChanges?
    case UninstallTag => c.Uninstall?
    case RecoverTag => c.RecoverSubscriber?
    case EmitTag => c.Emit?
    case OnceBlockTag => c == OnceBlock
    case OffBlockTag => c == OffBlock
  }

  /** The number of calls in `calls` of kind `t`. */
  function Count(calls: seq<Call>, t: Tag): nat
  {
    if calls == [] then 0
    else (if Tagged(calls[0], t) then 1 else 0) + Count(calls[1..], t)
  }

  /** One when the cache holds an install request that settled with a value, which
      teardown will uninstall. Zero otherwise. */
  function Held(s: State): nat {
    if s.cache.Some? && s.cache.value.Ok? then 1 else 0
  }

  /** The operations that cannot drop the cached install request. */
  predicate KeepsCache(op: Op) {
    op.Start? || op.Resume? || op.Block? || (op.Pause? && !op.drop)
  }
}

=== FILE: filterid_properties.dfy ===
/** What the subscriber guarantees across one poll and across any sequence of
    operations, proved about the step functions of FilterIdModel. */
module FilterIdProperties {
  import opened FilterIdModel

  lemma {:induction false} CountAppend(a: seq<Call>, b: seq<Call>, t: Tag)
    ensures Count(a + b, t) == Count(a, t) + Count(b, t)
  {
    if a == [] {
      assert a + b == b;
    } else {
      assert (a + b)[0] == a[0];
      assert (a + b)[1..] == a[1..] + b;
      CountAppend(a[1..], b, t);
    }
  }

  /** Emissions contain one Emit per result and no call of any other kind. */
  lemma {:induction false} EmissionsCount(kind: Kind, results: seq<RawChange>, t: Tag)
    ensures Count(Emissions(kind, results), t) == if t == EmitTag then |results| else 0
  {
    if results != [] {
      var init := results[..|results| - 1];
      EmissionsCount(kind, init, t);
      CountAppend(Emissions(kind, init), [Emission(kind, results[|results| - 1])], t);
    }
  }

  /** How many calls of each kind one poll makes. It installs exactly when nothing
      is cached, queries once exactly when it passes every check and is not halted,
      emits once per result, hands off only on a missing id in the event
      specialization, and reschedules except on the two early returns. */
  lemma PollCounts(kind: Kind, s: State, inp: PollInputs, t: Tag)
    ensures Count(PollStep(kind, s, inp).calls, t) ==
      match t
      case InstallTag => if s.cache.None? then 1 else 0
      case SettledInstallTag => if s.cache.None? && inp.install.Ok? then 1 else 0
      case GetChangesTag => if Queries(s, inp) then 1 else 0
      case EmitTag => if Queries(s, inp) && inp.changes.Ok? then |inp.changes.value| else 0
      case RecoverTag => if HandsOff(kind, s, inp) then 1 else 0
      case OnceBlockTag => if Reschedules(kind, s, inp) then 1 else 0
      case UninstallTag => 0
      case OffBlockTag => 0
  {
    var pre := InstallCalls(kind, s, inp);
    assert Count(pre, t) == if s.cache.None? && (t == InstallTag || (t == SettledInstallTag && inp.install.Ok?)) then 1 else 0 by {
      CountOne(Install(kind, inp.install), t);
    }
    if Queries(s, inp) {
      QueriedPollCount(kind, s, inp, t);
    } else if ReachesHaltCheck(s, inp) {
    } else if HandsOff(kind, s, inp) {
      HandOffPollCount(kind, s, inp, t);
    } else {
      FailedPollCount(kind, s, inp, t);
    }
  }

  lemma QueriedPollCount(kind: Kind, s: State, inp: PollInputs, t: Tag)
    requires Queries(s, inp)
    ensures Count(PollStep(kind, s, inp).calls, t) ==
      Count(InstallCalls(kind, s, inp), t) + (if t == GetChangesTag then 1 else 0)
      + (if t == EmitTag && inp.changes.Ok? then |inp.changes.value| else 0)
      + (if t == OnceBlockTag then 1 else 0)
  {
    var pre := InstallCalls(kind, s, inp);
    var query := [GetChanges(InstallInEffect(s, inp).value.value)];
    var rest := if inp.changes.Ok? then Emissions(kind, inp.changes.value) + [OnceBlock]
                else [Logged(ChangesRejected), OnceBlock];
    assert PollStep(kind, s, inp).calls == (pre + query) + rest;
    CountOne(query[0], t);
    CountAppend(pre, query, t);
    CountAppend(pre + query, rest, t);
    if inp.changes.Ok? {
      EmissionsCount(kind, inp.changes.value, t);
      CountOne(OnceBlock, t);
      CountAppend(Emissions(kind, inp.changes.value), [OnceBlock], t);
    } else {
      CountPair(Logged(ChangesRejected), OnceBlock, t);
    }
  }

  lemma HandOffPollCount(kind: Kind, s: State, inp: PollInputs, t: Tag)
    requires HandsOff(kind, s, inp)
    ensures Count(PollStep(kind, s, inp).calls, t) ==
      Count(InstallCalls(kind, s, inp), t) + (if t == RecoverTag then 1 else 0)
  {
    CountOne(RecoverSubscriber(kind.filter), t);
    CountAppend(InstallCalls(kind, s, inp), [RecoverSubscriber(kind.filter)], t);
  }

  lemma FailedPollCount(kind: Kind, s: State, inp: PollInputs, t: Tag)
    requires !ReachesHaltCheck(s, inp) && !HandsOff(kind, s, inp)
    ensures Count(PollStep(kind, s, inp).calls, t) ==
      Count(InstallCalls(kind, s, inp), t) + (if t == OnceBlockTag then 1 else 0)
  {
    var reply := InstallInEffect(s, inp);
    var e := if reply.Rejected? then InstallRejected
             else if reply.value.None? then NoRecoverHook
             else if inp.chain.Rejected? then NetworkUnavailable
             else ChainChanged;
    assert PollStep(kind, s, inp).calls == InstallCalls(kind, s, inp) + [Logged(e), OnceBlock];
    CountPair(Logged(e), OnceBlock, t);
    CountAppend(InstallCalls(kind, s, inp), [Logged(e), OnceBlock], t);
  }

  lemma CountOne(c: Call, t: Tag)
    ensures Count([c], t) == if Tagged(c, t) then 1 else 0
  {
    assert [c][1..] == [];
  }

  lemma CountPair(c: Call, d: Call, t: Tag)
    ensures Count([c, d], t) == (if Tagged(c, t) then 1 else 0) + (if Tagged(d, t) then 1 else 0)
  {
    assert [c, d][1..] == [d];
    CountOne(d, t);
  }

  /** One step keeps the uninstall books balanced: every uninstall it sends pays
      for an install request that settled with a value and was held in the cache. */
  lemma StepBalancesUninstalls(kind: Kind, s: State, op: Op)
    ensures var r := Step(kind, s, op);
      Count(r.calls, UninstallTag) + Held(r.next) == Count(r.calls, SettledInstallTag) + Held(s)
  {
    var r := Step(kind, s, op);
    match op
    case Start(inp) =>
      if !s.running {
        PollCounts(kind, s.(running := true), inp, UninstallTag);
        PollCounts(kind, s.(running := true), inp, SettledInstallTag);
      }
    case Resume(inp) =>
      if !s.running {
        PollCounts(kind, s.(running := true), inp, UninstallTag);
        PollCounts(kind, s.(running := true), inp, SettledInstallTag);
      }
    case Block(inp) =>
      PollCounts(kind, s, inp, UninstallTag);
      PollCounts(kind, s, inp, SettledInstallTag);
    case Stop =>
      if s.running {
        CountAppend(TeardownStep(s).calls, [OffBlock], UninstallTag);
        CountAppend(TeardownStep(s).calls, [OffBlock], SettledInstallTag);
      }
    case Pause(drop) =>
      var torn := if drop then TeardownStep(s).calls else [];
      CountAppend(torn, [OffBlock], UninstallTag);
      CountAppend(torn, [OffBlock], SettledInstallTag);
  }

  /** Exactly one uninstall per cached install: over any sequence of operations,
      the uninstalls sent plus the request still held equal the install requests
      that settled with a value plus the one held at the start. */
  lemma {:induction false} UninstallOncePerInstall(kind: Kind, s: State, ops: seq<Op>)
    ensures var r := Run(kind, s, ops);
      Count(r.calls, UninstallTag) + Held(r.next) == Count(r.calls, SettledInstallTag) + Held(s)
    decreases |ops|
  {
    if ops != [] {
      var first := Step(kind, s, ops[0]);
      var rest := Run(kind, first.next, ops[1..]);
      StepBalancesUninstalls(kind, s, ops[0]);
      UninstallOncePerInstall(kind, first.next, ops[1..]);
      CountAppend(first.calls, rest.calls, UninstallTag);
      CountAppend(first.calls, rest.calls, SettledInstallTag);
    }
  }

  /** A step that cannot drop the cache either leaves it as it was and installs
      nothing, or finds it empty, installs once and fills it. */
  lemma StepSingleFlight(kind: Kind, s: State, op: Op)
    requires KeepsCache(op)
    ensures var r := Step(kind, s, op);
      || (Count(r.calls, InstallTag) == 0 && r.next.cache == s.cache)
      || (s.cache.None? && Count(r.calls, InstallTag) == 1 && r.next.cache.Some?)
  {
    match op
    case Start(inp) =>
      if !s.running { PollCounts(kind, s.(running := true), inp, InstallTag); }
    case Resume(inp) =>
      if !s.running { PollCounts(kind, s.(running := true), inp, InstallTag); }
    case Block(inp) =>
      PollCounts(kind, s, inp, InstallTag);
    case Pause(drop) =>
  }

  /** Single flight: with no teardown in between, a subscriber installs at most
      once, and not at all when an install request is already cached; that cached
      request is the one every later poll waits on. */
  lemma {:induction false} SingleFlight(kind: Kind, s: State, ops: seq<Op>)
    requires forall i :: 0 <= i < |ops| ==> KeepsCache(ops[i])
    ensures Count(Run(kind, s, ops).calls, InstallTag) <= 1
    ensures s.cache.Some? ==> Count(Run(kind, s, ops).calls, InstallTag) == 0
                              && Run(kind, s, ops).next.cache == s.cache
    ensures Run(kind, s, ops).next.cache.None? ==> s.cache.None?
    decreases |ops|
  {
    if ops != [] {
      var first := Step(kind, s, ops[0]);
      var rest := Run(kind, first.next, ops[1..]);
      StepSingleFlight(kind, s, ops[0]);
      SingleFlight(kind, first.next, ops[1..]);
      CountAppend(first.calls, rest.calls, InstallTag);
    }
  }

  /** A step of a halted subscriber stays halted and neither queries nor emits. */
  lemma StepWhileHalted(kind: Kind, s: State, op: Op, t: Tag)
    requires s.hault
    requires t == GetChangesTag || t == EmitTag
    ensures Step(kind, s, op).next.hault
    ensures Count(Step(kind, s, op).calls, t) == 0
  {
    match op
    case Start(inp) =>
      if !s.running { PollCounts(kind, s.(running := true), inp, t); }
    case Resume(inp) =>
      if !s.running { PollCounts(kind, s.(running := true), inp, t); }
    case Block(inp) =>
      PollCounts(kind, s, inp, t);
    case Stop =>
      if s.running { CountAppend(TeardownStep(s).calls, [OffBlock], t); }
    case Pause(drop) =>
      CountAppend(if drop then TeardownStep(s).calls else [], [OffBlock], t);
  }

  /** The halt flag is never cleared, and a halted subscriber never again queries
      changes or emits, whatever operations follow. */
  lemma {:induction false} HaltIsPermanent(kind: Kind, s: State, ops: seq<Op>)
    requires s.hault
    ensures Run(kind, s, ops).next.hault
    ensures Count(Run(kind, s, ops).calls, GetChangesTag) == 0
    ensures Count(Run(kind, s, ops).calls, EmitTag) == 0
    decreases |ops|
  {
    if ops != [] {
      var first := Step(kind, s, ops[0]);
      var rest := Run(kind, first.next, ops[1..]);
      StepWhileHalted(kind, s, ops[0], GetChangesTag);
      StepWhileHalted(kind, s, ops[0], EmitTag);
      HaltIsPermanent(kind, first.next, ops[1..]);
      CountAppend(first.calls, rest.calls, GetChangesTag);
      CountAppend(first.calls, rest.calls, EmitTag);
    }
  }

  /** After a stop of a running subscriber, no later operation, not even a new
      start, leads to a query or an emission. */
  lemma StopSilencesForever(kind: Kind, s: State, ops: seq<Op>)
    requires s.running
    ensures Count(Run(kind, s, [Stop] + ops).calls, GetChangesTag) == 0
    ensures Count(Run(kind, s, [Stop] + ops).calls, EmitTag) == 0
  {
    var stopped := StopStep(s);
    assert ([Stop] + ops)[1..] == ops;
    HaltIsPermanent(kind, stopped.next, ops);
    CountAppend(stopped.calls, Run(kind, stopped.next, ops).calls, GetChangesTag);
    CountAppend(stopped.calls, Run(kind, stopped.next, ops).calls, EmitTag);
    CountAppend(TeardownStep(s).calls, [OffBlock], GetChangesTag);
    CountAppend(TeardownStep(s).calls, [OffBlock], EmitTag);
  }

  /** Once a chain id is recorded, no sequence of operations overwrites it. */
  lemma {:induction false} NetworkNeverOverwritten(kind: Kind, s: State, ops: seq<Op>)
    requires s.network.Some?
    ensures Run(kind, s, ops).next.network == s.network
    decreases |ops|
  {
    if ops != [] {
      NetworkNeverOverwritten(kind, Step(kind, s, ops[0]).next, ops[1..]);
    }
  }

  /** A poll that sees a chain id other than the recorded one logs the change and
      reschedules, without querying or emitting, and keeps the recorded id. */
  lemma ChainChangeReschedules(kind: Kind, s: State, inp: PollInputs)
    requires s.network.Some?
    requires InstallInEffect(s, inp).Ok? && InstallInEffect(s, inp).value.Some?
    requires inp.chain.Ok? && inp.chain.value != s.network.value
    ensures PollStep(kind, s, inp).calls == InstallCalls(kind, s, inp) + [Logged(ChainChanged), OnceBlock]
    ensures PollStep(kind, s, inp).next.network == s.network
  {
  }

  /** Once the cached install request has settled with no filter id, no
      operation that keeps the cache leads to a query or an emission. */
  lemma {:induction false} NoQueryWithoutFilterId(kind: Kind, s: State, ops: seq<Op>)
    requires s.cache == Some(Ok(None))
    requires forall i :: 0 <= i < |ops| ==> KeepsCache(ops[i])
    ensures Count(Run(kind, s, ops).calls, GetChangesTag) == 0
    ensures Count(Run(kind, s, ops).calls, EmitTag) == 0
    decreases |ops|
  {
    if ops != [] {
      var first := Step(kind, s, ops[0]);
      var rest := Run(kind, first.next, ops[1..]);
      StepSingleFlight(kind, s, ops[0]);
      match ops[0] {
      case Start(inp) =>
        if !s.running {
          PollCounts(kind, s.(running := true), inp, GetChangesTag);
          PollCounts(kind, s.(running := true), inp, EmitTag);
        }
      case Resume(inp) =>
        if !s.running {
          PollCounts(kind, s.(running := true), inp, GetChangesTag);
          PollCounts(kind, s.(running := true), inp, EmitTag);
        }
      case Block(inp) =>
        PollCounts(kind, s, inp, GetChangesTag);
        PollCounts(kind, s, inp, EmitTag);
      case Pause(drop) =>
      }
      NoQueryWithoutFilterId(kind, first.next, ops[1..]);
      CountAppend(first.calls, rest.calls, GetChangesTag);
      CountAppend(first.calls, rest.calls, EmitTag);
    }
  }

  /** A second start, or a resume, of a running subscriber changes nothing. */
  lemma StartIsIdempotent(kind: Kind, s: State, first: PollInputs, second: Op)
    requires second.Start? || second.Resume?
    ensures Run(kind, s, [Start(first), second]) == Run(kind, s, [Start(first)])
  {
    assert [Start(first), second][1..] == [second];
    assert [second][1..] == [];
    assert [Start(first)][1..] == [];
  }

  /** A second stop changes nothing. */
  lemma StopIsIdempotent(kind: Kind, s: State)
    ensures Run(kind, s, [Stop, Stop]) == Run(kind, s, [Stop])
  {
    assert [Stop, Stop][1..] == [Stop];
    assert [Stop][1..] == [];
  }

  /** Pause leaves `running` set, so a resume that follows the pause of a running
      subscriber makes no call: polling does not start again, and a filter dropped
      by `pause(true)` is not installed again. */
  lemma ResumeAfterPauseDoesNothing(kind: Kind, s: State, drop: bool, inp: PollInputs)
    requires s.running
    ensures Run(kind, s, [Pause(drop), Resume(inp)]) == PauseStep(s, drop)
  {
    var paused := PauseStep(s, drop);
    assert [Pause(drop), Resume(inp)][1..] == [Resume(inp)];
    assert [Resume(inp)][1..] == [];
    assert Run(kind, paused.next, [Resume(inp)]) == StepResult(paused.next, []);
    assert paused.calls + [] == paused.calls;
  }

  /** A poll that runs after a stop, such as one rescheduled by a cycle that was
      in flight during the stop and failed, finds the cache empty and installs a
      new filter. Since `running` is then false, a further stop returns at once:
      the new install stays held and no uninstall is sent for it. */
  lemma PollAfterStopKeepsNewInstall(kind: Kind, s: State, inp: PollInputs)
    requires s.running
    ensures var r := Run(kind, s, [Stop, Block(inp), Stop]);
      && Count(r.calls, InstallTag) == 1
      && Count(r.calls, UninstallTag) == Held(s)
      && !r.next.running
      && r.next.cache == Some(inp.install)
  {
    var stopped := StopStep(s);
    var polled := PollStep(kind, stopped.next, inp);
    var again := StopStep(polled.next);
    assert [Stop, Block(inp), Stop][1..] == [Block(inp), Stop];
    assert [Block(inp), Stop][1..] == [Stop];
    assert [Stop][1..] == [];
    assert Run(kind, polled.next, [Stop]) == StepResult(polled.next, []);
    assert Run(kind, stopped.next, [Block(inp), Stop]) == StepResult(polled.next, polled.calls + []);
    assert polled.calls + [] == polled.calls;
    if Held(s) == 1 {
      CountOne(Uninstall(s.cache.value.value), InstallTag);
      CountOne(Uninstall(s.cache.value.value), UninstallTag);
    }
    CountOne(OffBlock, InstallTag);
    CountOne(OffBlock, UninstallTag);
    PollCounts(kind, stopped.next, inp, InstallTag);
    PollCounts(kind, stopped.next, inp, UninstallTag);
    CountAppend(TeardownStep(s).calls, [OffBlock], InstallTag);
    CountAppend(TeardownStep(s).calls, [OffBlock], UninstallTag);
    CountAppend(stopped.calls, polled.calls + [], InstallTag);
    CountAppend(stopped.calls, polled.calls + [], UninstallTag);
  }

  /** The install left behind by [Stop, Block, Stop] is still uninstalled later:
      by `pause(true)`, or by a `start` followed by a `stop`. */
  lemma LeftoverInstallDroppedLater(kind: Kind, s: State, inp: PollInputs, inp2: PollInputs)
    requires s.running && inp.install.Ok?
    ensures var left := Run(kind, s, [Stop, Block(inp), Stop]).next;
      && Run(kind, left, [Pause(true)]).calls == [Uninstall(inp.install.value), OffBlock]
      && Run(kind, left, [Start(inp2), Stop]).calls
         == StartStep(kind, left, inp2).calls + [Uninstall(inp.install.value), OffBlock]
      && Count(StartStep(kind, left, inp2).calls, InstallTag) == 0
  {
    PollAfterStopKeepsNewInstall(kind, s, inp);
    var left := Run(kind, s, [Stop, Block(inp), Stop]).next;
    assert [Pause(true)][1..] == [];
    assert Run(kind, left, [Pause(true)]).calls == PauseStep(left, true).calls + [];
    var started := StartStep(kind, left, inp2);
    assert started.next.running && started.next.cache == left.cache;
    PollCounts(kind, left.(running := true), inp2, InstallTag);
    assert [Start(inp2), Stop][1..] == [Stop];
    assert [Stop][1..] == [];
    var stopped := StopStep(started.next);
    assert stopped.calls == [Uninstall(inp.install.value), OffBlock];
    assert Run(kind, left, [Start(inp2), Stop]).calls == started.calls + (stopped.calls + []);
    assert stopped.calls + [] == stopped.calls;
  }

  /** `pause` sets no halt flag. So a poll that runs after `pause(true)`, because a
      cycle in flight during the pause registered the poller again, installs a new
      filter, queries it, emits and reschedules as if no pause had happened. */
  lemma PollAfterPauseReinstalls(kind: Kind, s: State, inp: PollInputs)
    requires !s.hault && inp.install.Ok? && inp.install.value.Some? && inp.chain.Ok?
    requires s.network.None? || s.network.value == inp.chain.value
    requires inp.changes.Ok?
    ensures var r := Run(kind, s, [Pause(true), Block(inp)]);
      && r.calls == TeardownStep(s).calls + [OffBlock, Install(kind, inp.install), GetChanges(inp.install.value.value)]
                    + Emissions(kind, inp.changes.value) + [OnceBlock]
      && r.next.cache == Some(inp.install) && r.next.running == s.running && !r.next.hault
  {
    var paused := PauseStep(s, true);
    var polled := PollStep(kind, paused.next, inp);
    assert Queries(paused.next, inp);
    assert [Pause(true), Block(inp)][1..] == [Block(inp)];
    assert [Block(inp)][1..] == [];
    assert Run(kind, polled.next, []) == StepResult(polled.next, []);
    assert Run(kind, paused.next, [Block(inp)]) == StepResult(polled.next, polled.calls + []);
    assert Run(kind, s, [Pause(true), Block(inp)]) == StepResult(polled.next, paused.calls + (polled.calls + []));
    assert polled.calls + [] == polled.calls;
  }
}

=== FILE: filterid_subscriber.dfy ===
/** The subscriber as an object whose methods update its private fields in place.
    Each method is proved against the step function of FilterIdModel that
    specifies it. The Provider calls it makes are appended to a ghost trace. */
module FilterIdSubscribers {
  import opened FilterIdModel

  class FilterIdSubscriber {
    /** Which specialization this is. The event subscriber's filter is the deep
        copy taken at construction, and it never changes. */
    const kind: Kind
    /** The cached install request, represented by how it settles. */
    var filterIdPromise: Option<InstallReply>
    var running: bool
    var hault: bool
    /** The chain id seen on the first poll that got a filter id. */
    var network: Option<ChainId>
    /** The Provider calls made so far, in order. */
    ghost var trace: seq<Call>

    ghost function Snapshot(): State
      reads this
    {
      State(filterIdPromise, running, hault, network)
    }

    /** Builds the log-event subscriber for `Event(filter)` and the
        pending-transaction subscriber for `Pending`. */
    constructor (kind: Kind)
      ensures this.kind == kind && Snapshot() == INITIAL && trace == []
    {
      this.kind := kind;
      filterIdPromise := None;
      running := false;
      hault := false;
      network := None;
      trace := [];
    }

    /** `_emitResults` of both specializations: one emission per result, in order. */
    method EmitResults(results: seq<RawChange>)
      modifies this`trace
      ensures trace == old(trace) + Emissions(kind, results)
    {
      for i := 0 to |results|
        invariant trace == old(trace) + Emissions(kind, results[..i])
      {
        assert results[..i + 1][..i] == results[..i];
        trace := trace + [Emission(kind, results[i])];
      }
      assert results[..|results|] == results;
    }

    /** The poller: one poll cycle, with the outcomes of its awaited calls given. */
    method Poll(inp: PollInputs)
      modifies this
      ensures Snapshot() == PollStep(kind, old(Snapshot()), inp).next
      ensures trace == old(trace) + PollStep(kind, old(Snapshot()), inp).calls
    {
      if filterIdPromise.None? {
        filterIdPromise := Some(inp.install);
        trace := trace + [Install(kind, inp.install)];
      }
      var failure: Option<PollError> := None;
      var reply := filterIdPromise.value;
      if reply.Rejected? {
        failure := Some(InstallRejected);
      } else if reply.value.None? {
        if kind.Event? {
          trace := trace + [RecoverSubscriber(kind.filter)];
          return;
        }
        failure := Some(NoRecoverHook);
      } else if inp.chain.Rejected? {
        failure := Some(NetworkUnavailable);
      } else {
        if network.None? {
          network := Some(inp.chain.value);
        }
        if network.value != inp.chain.value {
          failure := Some(ChainChanged);
        } else if hault {
          return;
        } else {
          trace := trace + [GetChanges(reply.value.value)];
          if inp.changes.Rejected? {
            failure := Some(ChangesRejected);
          } else {
            EmitResults(inp.changes.value);
          }
        }
      }
      if failure.Some? {
        trace := trace + [Logged(failure.value)];
      }
      trace := trace + [OnceBlock];
    }

    method Teardown()
      modifies this
      ensures Snapshot() == TeardownStep(old(Snapshot())).next
      ensures trace == old(trace) + TeardownStep(old(Snapshot())).calls
    {
      var pending := filterIdPromise;
      if pending.Some? {
        filterIdPromise := None;
        if pending.value.Ok? {
          trace := trace + [Uninstall(pending.value.value)];
        }
      }
    }

    method Start(inp: PollInputs)
      modifies this
      ensures Snapshot() == StartStep(kind, old(Snapshot()), inp).next
      ensures trace == old(trace) + StartStep(kind, old(Snapshot()), inp).calls
    {
      if running {
        return;
      }
      running := true;
      Poll(inp);
    }

    method Stop()
      modifies this
      ensures Snapshot() == StopStep(old(Snapshot())).next
      ensures trace == old(trace) + StopStep(old(Snapshot())).calls
    {
      if !running {
        return;
      }
      running := false;
      hault := true;
      Teardown();
      trace := trace + [OffBlock];
    }

    method Pause(dropWhilePaused: bool)
      modifies this
      ensures Snapshot() == PauseStep(old(Snapshot()), dropWhilePaused).next
      ensures trace == old(trace) + PauseStep(old(Snapshot()), dropWhilePaused).calls
    {
      if dropWhilePaused {
        Teardown();
      }
      trace := trace + [OffBlock];
    }

    method Resume(inp: PollInputs)
      modifies this
      ensures Snapshot() == StartStep(kind, old(Snapshot()), inp).next
      ensures trace == old(trace) + StartStep(kind, old(Snapshot()), inp).calls
    {
      Start(inp);
    }
  }

  /** A pending-transaction subscriber whose install returns the filter id "0xF2"
      and whose first poll finds two hashes: both are emitted on "pending", in order. */
  method PendingScenario() {
    var sub := new FilterIdSubscriber(Pending);
    sub.Start(PollInputs(Ok(Some("0xF2")), Ok(1), Ok(["0xdead", "0xbeef"])));
    assert sub.trace == [Install(Pending, Ok(Some("0xF2"))), GetChanges("0xF2"),
                         Emit(Named("pending"), RawValue("0xdead")),
                         Emit(Named("pending"), RawValue("0xbeef")), OnceBlock];
    sub.Stop();
    assert sub.trace[5..] == [Uninstall(Some("0xF2")), OffBlock];
  }

  /** A log-event subscriber whose install finds no filter id hands off to a
      polling subscriber on the same filter, and neither queries nor reschedules. */
  method UnsupportedScenario(filter: Filter, inp: PollInputs) {
    var sub := new FilterIdSubscriber(Event(filter));
    sub.Start(inp.(install := Ok(None)));
    assert sub.trace == [Install(Event(filter), Ok(None)), RecoverSubscriber(filter)];
  }
}
